=== FILE: README.md ===
# Restaurant booking automation — a Dafny model of its decision logic

The repository is one script, `book_restaurant.py`, that drives a browser
through a restaurant's reservation form and prints a JSON result. Driving the
browser is I/O; what this project models is the deterministic logic around it:

- **Defaulting** (`Request`): the seven booking fields each take the supplied
  value or a fixed literal. Those literals are the same as the entry point's
  built-in record.
- **Abstract page** (`Browser`): a finite map from opaque locators to the
  elements they match, in document order. It also records which elements raise
  when used, which `<select>` options exist, what was typed, selected and
  clicked, and the page source.
- **Form navigation** (`Form`):
  - Each text field is filled through a primary lookup by `name`, then one
    fallback CSS locator, and is skipped silently when both fail.
  - The title step always chooses option `mr`.
  - The submit control comes from an ordered chain of five locators, then
    the last `<button>` on the page, and otherwise nothing is clicked.
- **Classification** (`Classifier`, `Text`): Python's `in` and an ASCII
  `lower()` over the final page source. The run is `success` when the source
  contains 成功, the lower-cased source contains `success`, or the source
  contains 確認. Otherwise it is `completed`.
- **Result shaping** (`Report`): the three result records and their exact
  key sets, and the exit code.
- **The run and entry point** (`Session`):
  - An environment value stands for the browser: whether it starts, which
    URLs fail to load, which screenshots fail, the page it shows, and the clock.
  - `BookRestaurant` ties every exception to the error record and quits the
    browser exactly when one was started.
  - `RunBooking` picks the payload and computes the exit code.

The browser and the clock are the `Env` parameter. Each command-line
argument comes with the outcome of decoding it as JSON (`Session.Argument`).
A decoded value that is not an object makes `.get` raise `AttributeError`
once the browser has started, so it ends in the error record and the
browser is still quit.

Behaviour of the script worth noting:

- There is no date/time/party-size filtering stage and no page-stage
  variable. `date`, `time` and `party_size` only feed the log and the
  result record, and `title` never reaches the page either: only name,
  phone and email do (`Session.OnlyContactFieldsReachPage`).
- A page with no submit control is not an error. The run goes on to
  classification (`Form.Submit`, `Session.AbsentControlsNeverFail`).
- An exception raised by `save_screenshot` is not caught: lines 128 and 172
  sit inside the outer `try`, so it gives the error record. A screenshot
  that merely fails to be written returns `False` and changes nothing here.
- No terms-of-agreement checkbox is handled.

## Model

| member | source | states |
|---|---|---|
| Request.Defaulted | book_restaurant.py:58-64 | each of the seven fields is the supplied value when its key is present, otherwise the fixed default, and every default equals the entry point's built-in value for that key |
| Request.DefaultedByKey | book_restaurant.py:58-64 | for every booking key, the field read is the supplied value or else the built-in value for that same key |
| Request.FieldsRoundTrip | book_restaurant.py:58-64 | an input holding all seven keys is taken verbatim: reading a booking back from its own fields returns it unchanged |
| Request.DefaultedIgnoresOtherKeys | book_restaurant.py:58-64 | keys other than the seven booking fields have no influence on the booking |
| Request.WholesaleMatchesMerge | book_restaurant.py:229-246 | replacing the built-in record wholesale yields the same booking as a per-key merge would; only the URL differs, and it becomes `None` when the supplied object lacks it |
| Text.Contains | book_restaurant.py:179 | Python's `sub in s` holds exactly when `sub` occurs at some position of `s` |
| Text.Lower | book_restaurant.py:179 | lower-casing keeps the length and folds each character independently |
| Browser.FirstHitReadsLookups | book_restaurant.py:143-152 | the lookup chain depends only on what the locators match |
| Browser.FirstHitSpec | book_restaurant.py:143-152 | an ordered lookup chain yields the first element of the first locator that matches, later locators are irrelevant, and it yields nothing only when no locator matches |
| Form.FillTarget | book_restaurant.py:70-122 | a usable primary element always wins; otherwise the first fallback match is the target; with neither, the field is skipped; the fill raises exactly when the primary is unusable and the first fallback match refuses input, with that element's exception |
| Form.FillField | book_restaurant.py:70-122 | a field fill writes the value into the fill target and changes nothing else on the page; a skipped field leaves the page as it was and raises nothing; it raises exactly when the primary element is unusable and the first fallback match refuses input, with that exception |
| Form.TargetsReadLookups | book_restaurant.py:70-168 | the fill targets and the submit target depend only on what the locators match and which elements refuse, so typing and selecting never move them |
| Form.FillFieldTouchesOneElement | book_restaurant.py:70-122 | at most one element is modified per field: every element whose value changed is the fill target and now holds the value, and no earlier value disappears |
| Form.SelectTitle | book_restaurant.py:87-92 | only the selection can change; a usable `title` control offering `mr` gets `mr` chosen, whatever title was requested; otherwise the page is unchanged |
| Form.SubmitLocatorKinds | book_restaurant.py:135-148 | of the five submit selectors the first three are looked up as CSS and the last two as XPath |
| Form.SubmitTarget | book_restaurant.py:134-165 | the first submit locator that matches decides the target; when none matches, the last button on the page is the target; with no buttons there is none |
| Form.Submit | book_restaurant.py:154-168 | submission raises only when the chosen control refuses the click; with no control nothing is clicked and nothing is raised; otherwise exactly one click is added |
| Form.FindSubmitButton | book_restaurant.py:143-152 | the selector loop, stopping at the first selector that finds an element, computes the lookup chain's first hit |
| Form.SubmitStep | book_restaurant.py:132-168 | the imperative submit step, locator loop then last-button fallback then click, agrees with the functional submit step |
| Classifier.Classify | book_restaurant.py:179 | the verdict is confirmed exactly when the source contains 成功, its lower-cased form contains `success`, or it contains 確認 |
| Classifier.FoldedSuccessConfirms | book_restaurant.py:179 | any seven-character window that folds to `success`, in any letter case, makes the verdict confirmed |
| Classifier.UnconfirmedHasNoMarker | book_restaurant.py:179-203 | an unconfirmed source contains no window folding to `success` and neither CJK marker |
| Report.ShapeResult | book_restaurant.py:179-203 | the result has keys status, message and booking_details; status is `success` or `completed` by verdict; the message is `Reservation completed successfully!` or `Booking process completed. Please verify the reservation.` by verdict; details hold exactly the verdict's echoed keys plus the timestamp; each echoed value is the booking field unchanged |
| Report.ErrorRecord | book_restaurant.py:207-214 | an exception becomes a record with exactly status `error`, a message prefixed `Booking process failed: ` and the exception's class name, and no booking details |
| Report.EchoesInput | book_restaurant.py:183-201 | every echoed value is the supplied input for its key, or the built-in value when the key was not supplied |
| Report.StatusesDistinct | book_restaurant.py:179-214 | a classified result is never an error record, an error record always is one, and the two verdicts give different statuses |
| Session.Drive | book_restaurant.py:50-177 | a payload that is not an object raises `AttributeError`; an unreachable URL raises its navigation error; a finished run carries the defaulted booking and the page source as shown. With `Session.InteractFails`, a refusing fallback element, a raising screenshot or a refusing submit control fails the run with that exception; with `Session.AbsentControlsNeverFail`, `Session.MarkedPageSucceeds` and `Session.OnlyContactFieldsReachPage`: on a fully usable page only navigation and screenshots can fail, and only name, phone and email affect the page |
| Session.Interact | book_restaurant.py:69-173 | the interaction succeeds only when neither screenshot raises, and keeps the page source and locator matches. With `Session.InteractFails` it fails exactly when a step raises, with the first such exception; with `Session.InteractFrame` it only types, selects and adds at most one click; with `Session.PrimaryFieldsFilled` distinct usable primary elements end up holding name, phone and email |
| Session.AbsentControlsNeverFail | book_restaurant.py:69-168 | on a reachable page whose elements all accept interaction, missing fields, a missing title control and a missing submit control never lead to an error |
| Session.InteractFails | book_restaurant.py:69-173 | the interaction fails exactly when a fill's fallback element refuses input, a screenshot raises or the submit control refuses the click, judged on the page as shown; it fails with the exception of the first such step in the order name, phone, email, first screenshot, click, second screenshot |
| Session.OnlyContactFieldsReachPage | book_restaurant.py:58-122 | two requests that agree on name, phone, email and the URL drive the page identically, whatever their title, date, time and party size |
| Session.InteractFrame | book_restaurant.py:69-177 | the interaction only types, selects and clicks: locator matches, element behaviour and page source are unchanged, and at most one click is added |
| Session.PrimaryFieldsFilled | book_restaurant.py:69-122 | when name, phone and email are reachable by their primary names on distinct usable elements, each ends up holding the requested value |
| Session.MarkedPageSucceeds | book_restaurant.py:177-192 | a reachable, fully usable page whose source carries a CJK marker concludes in exactly the `success` record of the defaulted input |
| Session.Conclude | book_restaurant.py:179-214 | a raised run gives the error record of its exception; a finished run gives a record with status `success` exactly when the final source carries a marker, `completed` otherwise, timestamped with the clock reading, whose details echo the run's booking field for field |
| Session.ConcludeStatus | book_restaurant.py:179-214 | a started run's record is an error record exactly when the run raised, and its status is always success, completed or error |
| Session.BookRestaurant | book_restaurant.py:38-220 | a browser that fails to start gives the error record of that failure; a started run gives the error record of the exception it raised, or the classified record; the browser is quit exactly when it was started |
| Session.InputPayload | book_restaurant.py:229-246 | with no argument or one that is not valid JSON, the built-in record is used; otherwise the decoded value replaces it wholesale |
| Report.ExitCode | book_restaurant.py:258 | the exit status is 0 or 1, and 1 exactly when the result's status is `error` |
| Session.RunBooking | book_restaurant.py:222-258 | the result is the booking run's record for the chosen payload: the error record of a failed browser start, otherwise the concluded record of the run; the exit code is 0 or 1; it is 1 exactly when the result is an error record, which happens exactly when starting the browser or the run raised |

## Left out

- Browser engine: the Chrome launch, its options, navigation and real CSS/XPath matching are not modelled. Locators are opaque keys. The browser's answers are the `Env` and `Page` values: whether it starts, which URLs fail, what each locator matches, which elements raise.
- Timing: the 10-second `WebDriverWait` and the `time.sleep` settle delays carry no logic. A wait is a lookup that succeeds or fails.
- Screenshots: the fixed `/tmp` paths and the image files are not modelled. Only whether `save_screenshot` raises is modelled.
- Console output: `print` logging is not modelled.
- JSON: decoding is not modelled. Each argument carries its decoded value, or none for invalid JSON. Printing the result is not modelled either.
- Clock: `datetime.now().isoformat()` is the opaque `Env.clock` string. Both timestamp reads happen at classification time.
- Decoding failures other than invalid JSON are not modelled, for example a recursion error on very deep nesting. The script does not catch them either.
- Payload values: values other than strings in the decoded object are not modelled, for example a number given as `party_size`.
- Text.Lower: folds ASCII capitals only. Python's `str.lower` also folds capitals of other scripts. The CJK markers have no case, and among non-ASCII capitals only U+212A (Kelvin sign, folding to `k`) and U+0130 fold to ASCII letters, and neither letter is in `success`.
- Form.FillField: typing is treated as all-or-nothing. If `clear()` succeeds and `send_keys` then raises, the script leaves the element cleared; the model leaves its value as it was. Attributes such as `maxlength` that change what `send_keys` stores are not modelled.
- Browser.Page: refusal is modelled per element, not per operation: an element in `rejects` refuses `clear`, `send_keys`, `click` and `select_by_value` alike. The fill targets, the title `<select>` and the submit buttons are different elements, so no step here depends on one element accepting one operation and refusing another.
- Session.BookRestaurant: a `driver.quit()` that itself raises, and a raising `page_source` read, are not modelled. Failures of `find_elements` other than an empty list are not modelled either.

=== FILE: browser.dfy ===
/**
 An abstract browser page. Locators are opaque keys: the page says which
 elements each locator matches, in document order, and how each element
 behaves when the script interacts with it. Real CSS and XPath matching, and
 the timing of waits, are outside the model: a wait is a lookup that either
 succeeds or fails.
 */
module Browser {
  import opened Wrappers

  type ElementId = nat

  /** The locator strategies the script uses (`By.NAME`, `By.CSS_SELECTOR`, `By.XPATH`, `By.TAG_NAME`). */
  datatype Selector = ByName(name: string) | Css(css: string) | XPath(path: string) | TagName(tag: string)

  /** A raised exception: its class name and its `str()` text. */
  datatype Exception = Exception(kind: string, text: string)

  datatype Page = Page(
    found: map<Selector, seq<ElementId>>,     // what each locator matches, in document order
    rejects: map<ElementId, Exception>,       // elements whose interaction raises, and what
    options: map<ElementId, set<string>>,     // `<select>` controls and their option values
    values: map<ElementId, string>,           // text typed into inputs
    selected: map<ElementId, string>,         // option chosen in each `<select>`
    clicks: seq<ElementId>,                   // elements clicked, in order
    source: string)                           // `page_source` as read after submission

  /** `find_elements`: every match, or the empty list; it never raises. */
  function FindElements(p: Page, sel: Selector): seq<ElementId> {
    if sel in p.found then p.found[sel] else []
  }

  /** The locator matches at least one element. */
  predicate Resolves(p: Page, sel: Selector) {
    |FindElements(p, sel)| > 0
  }

  /** `find_element`: the first match; `None` stands for the raised `NoSuchElementException`. */
  function FindElement(p: Page, sel: Selector): Option<ElementId> {
    if Resolves(p, sel) then Some(FindElements(p, sel)[0]) else None
  }

  /** The element can be cleared, typed into, selected and clicked without raising. */
  predicate Accepts(p: Page, e: ElementId) {
    e !in p.rejects
  }

  /** `clear()` followed by `send_keys(v)`. */
  function TypeInto(p: Page, e: ElementId, v: string): Result<Page, Exception> {
    if Accepts(p, e) then Success(p.(values := p.values[e := v])) else Failure(p.rejects[e])
  }

  /** `click()`. */
  function Click(p: Page, e: ElementId): Result<Page, Exception> {
    if Accepts(p, e) then Success(p.(clicks := p.clicks + [e])) else Failure(p.rejects[e])
  }

  /** `Select(e).select_by_value(v)`. */
  function SelectByValue(p: Page, e: ElementId, v: string): Result<Page, Exception> {
    if !Accepts(p, e) then Failure(p.rejects[e])
    else if e !in p.options then
      Failure(Exception("UnexpectedTagNameException", "Select only works on <select> elements"))
    else if v !in p.options[e] then
      Failure(Exception("NoSuchElementException", "Cannot locate option with value: " + v))
    else Success(p.(selected := p.selected[e := v]))
  }

  /** Selector `i` is the first of `sels` that matches anything. */
  ghost predicate FirstHitAt(p: Page, sels: seq<Selector>, i: int) {
    && 0 <= i < |sels|
    && Resolves(p, sels[i])
    && forall j :: 0 <= j < i ==> !Resolves(p, sels[j])
  }

  /** An ordered lookup chain: try each locator in turn, the first that matches wins. */
  function FirstHit(p: Page, sels: seq<Selector>): Option<ElementId> {
    if |sels| == 0 then None
    else if Resolves(p, sels[0]) then Some(FindElements(p, sels[0])[0])
    else FirstHit(p, sels[1..])
  }

  /** The chain yields the first element of the first matching locator, and nothing only when no locator matches. */
  lemma {:induction false} FirstHitSpec(p: Page, sels: seq<Selector>)
    ensures FirstHit(p, sels).None? <==> forall i :: 0 <= i < |sels| ==> !Resolves(p, sels[i])
    ensures forall i :: FirstHitAt(p, sels, i) ==> FirstHit(p, sels) == Some(FindElements(p, sels[i])[0])
    ensures FirstHit(p, sels).Some? ==> exists i :: FirstHitAt(p, sels, i)
  {
    if |sels| == 0 {
    } else if Resolves(p, sels[0]) {
      assert FirstHitAt(p, sels, 0);
      forall i | FirstHitAt(p, sels, i)
        ensures i == 0
      {
      }
    } else {
      var tail := sels[1..];
      FirstHitSpec(p, tail);
      forall i | FirstHitAt(p, sels, i)
        ensures FirstHitAt(p, tail, i - 1)
      {
        assert i != 0;
        forall j | 0 <= j < i - 1
          ensures !Resolves(p, tail[j])
        {
          assert tail[j] == sels[j + 1];
        }
      }
      if FirstHit(p, sels).Some? {
        var k :| FirstHitAt(p, tail, k);
        assert FirstHitAt(p, sels, k + 1) by {
          forall j | 0 <= j < k + 1
            ensures !Resolves(p, sels[j])
          {
            if j > 0 {
              assert sels[j] == tail[j - 1];
            }
          }
        }
      }
      if forall i :: 0 <= i < |tail| ==> !Resolves(p, tail[i]) {
        forall i | 0 <= i < |sels|
          ensures !Resolves(p, sels[i])
        {
          if i > 0 {
            assert sels[i] == tail[i - 1];
          }
        }
      }
    }
  }

  /** The chain depends only on what the locators match. */
  lemma {:induction false} FirstHitReadsLookups(p: Page, q: Page, sels: seq<Selector>)
    requires p.found == q.found
    ensures FirstHit(p, sels) == FirstHit(q, sels)
    decreases |sels|
  {
    if |sels| > 0 {
      FirstHitReadsLookups(p, q, sels[1..]);
    }
  }
}

=== FILE: classifier.dfy ===
/**
 The outcome classifier: a substring test of the final page source against
 three affirmative markers.
 */
module Classifier {
  import opened Text

  /** `success`: a marker was found; `completed`: the run finished without one. */
  datatype Verdict = Confirmed | Unconfirmed

  /**
   Confirmed exactly when the source contains 成功 ("success"), its ASCII
   lower-cased form contains `success`, or it contains 確認 ("confirm").
   */
  function Classify(source: string): (v: Verdict)
    ensures v == Confirmed <==> Occurs("成功", source) || Occurs("success", Lower(source)) || Occurs("確認", source)
  {
    if Contains("成功", source) || Contains("success", Lower(source)) || Contains("確認", source)
    then Confirmed
    else Unconfirmed
  }

  /** The Latin marker is matched regardless of case: any window that folds to `success` confirms. */
  lemma {:induction false} FoldedSuccessConfirms(source: string, i: nat)
    requires i + 7 <= |source| && Lower(source[i..i + 7]) == "success"
    ensures Classify(source) == Confirmed
  {
    LowerSlice(source, i, i + 7);
    assert MatchAt("success", Lower(source), i);
  }

  /** Conversely, an unconfirmed source has no window that folds to `success`, and neither CJK marker. */
  lemma {:induction false} UnconfirmedHasNoMarker(source: string, i: nat)
    requires Classify(source) == Unconfirmed
    ensures i + 7 <= |source| ==> Lower(source[i..i + 7]) != "success"
    ensures i + 2 <= |source| ==> source[i..i + 2] != "成功" && source[i..i + 2] != "確認"
  {
    if i + 7 <= |source| && Lower(source[i..i + 7]) == "success" {
      FoldedSuccessConfirms(source, i);
    }
    if i + 2 <= |source| {
      assert !MatchAt("成功", source, i) && !MatchAt("確認", source, i);
    }
  }
}

=== FILE: form.dfy ===
/**
 The form navigator: filling the three text fields through a primary lookup
 and one fallback, choosing the title option, and finding and clicking the
 submit control through an ordered chain of locators.
 */
module Form {
  import opened Wrappers
  import opened Browser

  const NameFallback: Selector := Css("input[placeholder*='名']")
  const PhoneFallback: Selector := Css("input[type='tel']")
  const EmailFallback: Selector := Css("input[type='email']")

  /** Which element a field fill writes to, or why it writes nowhere. */
  datatype FieldFill = Filled(target: ElementId) | Skipped | Raised(error: Exception)

  /** The element found by name exists and can be typed into. */
  predicate PrimaryUsable(p: Page, primary: string) {
    Resolves(p, ByName(primary)) && Accepts(p, FindElements(p, ByName(primary))[0])
  }

  /**
   The target of one field fill. Any failure of the primary lookup or of typing
   into its element is caught and the fallback locator is consulted; a failure
   while typing into the fallback element is not caught.
   */
  function FillTarget(p: Page, primary: string, fallback: Selector): (t: FieldFill)
    ensures t.Filled? ==> Accepts(p, t.target)
    ensures t.Filled? ==> t.target in FindElements(p, ByName(primary)) || t.target in FindElements(p, fallback)
    ensures PrimaryUsable(p, primary) ==> t == Filled(FindElements(p, ByName(primary))[0])
    ensures !PrimaryUsable(p, primary) && Resolves(p, fallback) && Accepts(p, FindElements(p, fallback)[0]) ==>
              t == Filled(FindElements(p, fallback)[0])
    ensures t.Skipped? <==> !PrimaryUsable(p, primary) && !Resolves(p, fallback)
    ensures t.Raised? ==> Resolves(p, fallback) && !Accepts(p, FindElements(p, fallback)[0])
                          && t.error == p.rejects[FindElements(p, fallback)[0]]
    ensures !PrimaryUsable(p, primary) && Resolves(p, fallback) && !Accepts(p, FindElements(p, fallback)[0]) ==>
              t == Raised(p.rejects[FindElements(p, fallback)[0]])
  {
    match FindElement(p, ByName(primary))
    case Some(e) =>
      if Accepts(p, e) then Filled(e) else FallbackTarget(p, fallback)
    case None =>
      FallbackTarget(p, fallback)
  }

  /** The `except` branch of a field fill: the first fallback match, if any. */
  function FallbackTarget(p: Page, fallback: Selector): FieldFill {
    var alts := FindElements(p, fallback);
    if |alts| == 0 then Skipped
    else if Accepts(p, alts[0]) then Filled(alts[0])
    else Raised(p.rejects[alts[0]])
  }

  /**
   Fill one field with `v`: the fill target, and no other element, comes to
   hold `v`; nothing else on the page changes. Finding no element at all is
   not an error.
   */
  function FillField(p: Page, primary: string, fallback: Selector, v: string): (r: Result<Page, Exception>)
    ensures r.Success? ==> r.value == p.(values := r.value.values)
    ensures FillTarget(p, primary, fallback).Filled? ==>
              r.Success? && r.value.values == p.values[FillTarget(p, primary, fallback).target := v]
    ensures FillTarget(p, primary, fallback).Skipped? ==> r == Success(p)
    ensures r.Failure? <==> FillTarget(p, primary, fallback).Raised?
    ensures r.Failure? ==> r.error == FillTarget(p, primary, fallback).error
  {
    match FillTarget(p, primary, fallback)
    case Filled(e) => TypeInto(p, e, v)
    case Skipped => Success(p)
    case Raised(x) => Failure(x)
  }

  /**
   At most one element is modified per field: every element whose value
   changed is the fill target and now holds `v`, and no value is lost.
   */
  lemma FillFieldTouchesOneElement(p: Page, primary: string, fallback: Selector, v: string)
    requires FillField(p, primary, fallback, v).Success?
    ensures p.values.Keys <= FillField(p, primary, fallback, v).value.values.Keys
    ensures forall e :: e in FillField(p, primary, fallback, v).value.values &&
                        (e !in p.values || FillField(p, primary, fallback, v).value.values[e] != p.values[e]) ==>
                        FillTarget(p, primary, fallback) == Filled(e) && FillField(p, primary, fallback, v).value.values[e] == v
  {
  }

  /** The title control is present, can be used, and offers the option `mr`. */
  predicate TitleSelectable(p: Page) {
    && Resolves(p, ByName("title"))
    && var e := FindElements(p, ByName("title"))[0];
    && Accepts(p, e) && e in p.options && "mr" in p.options[e]
  }

  /**
   The title step. It always chooses the option `mr`, whatever title was
   requested; every failure is swallowed and then the page is left as it was.
   */
  function SelectTitle(p: Page): (q: Page)
    ensures q == p.(selected := q.selected)
    ensures TitleSelectable(p) ==> q.selected == p.selected[FindElements(p, ByName("title"))[0] := "mr"]
    ensures !TitleSelectable(p) ==> q == p
  {
    match FindElement(p, ByName("title"))
    case None => p
    case Some(e) =>
      match SelectByValue(p, e, "mr")
      case Success(q) => q
      case Failure(_) => p
  }

  /** The submit locators, tried in this order. */
  const SubmitSelectors: seq<string> := [
    "button[type='submit']",
    "button:contains('訂位')",
    "button:contains('確認')",
    "//button[contains(text(), '訂位')]",
    "//button[contains(text(), '確認')]"]

  /** A selector string starting with `//` is looked up as XPath, any other as CSS. */
  function Locator(s: string): Selector {
    if |s| >= 2 && s[..2] == "//" then XPath(s) else Css(s)
  }

  function SubmitLocators(): (ls: seq<Selector>)
    ensures |ls| == |SubmitSelectors|
    ensures forall i :: 0 <= i < |ls| ==> ls[i] == Locator(SubmitSelectors[i])
  {
    seq(|SubmitSelectors|, i requires 0 <= i < |SubmitSelectors| => Locator(SubmitSelectors[i]))
  }

  /** The first three submit locators are CSS selectors, the last two XPath expressions. */
  lemma SubmitLocatorKinds()
    ensures forall i :: 0 <= i < 3 ==> SubmitLocators()[i].Css?
    ensures forall i :: 3 <= i < 5 ==> SubmitLocators()[i].XPath?
  {
    forall i | 0 <= i < 3
      ensures SubmitSelectors[i][..2] != "//"
    {
      assert SubmitSelectors[i][0] == 'b';
      assert SubmitSelectors[i][..2][0] != "//"[0];
    }
    assert SubmitSelectors[3][..2] == "//";
    assert SubmitSelectors[4][..2] == "//";
  }

  /**
   The control that gets clicked: the first element of the first submit
   locator that matches; failing all of them, the last button on the page;
   failing that, nothing.
   */
  function SubmitTarget(p: Page): (t: Option<ElementId>)
    ensures forall i :: FirstHitAt(p, SubmitLocators(), i) ==> t == Some(FindElements(p, SubmitLocators()[i])[0])
    ensures (forall i :: 0 <= i < |SubmitLocators()| ==> !Resolves(p, SubmitLocators()[i])) ==>
              t == (var buttons := FindElements(p, TagName("button"));
                    if |buttons| > 0 then Some(buttons[|buttons| - 1]) else None)
    ensures t.None? ==> !Resolves(p, TagName("button"))
  {
    FirstHitSpec(p, SubmitLocators());
    match FirstHit(p, SubmitLocators())
    case Some(e) => Some(e)
    case None =>
      var buttons := FindElements(p, TagName("button"));
      if |buttons| > 0 then Some(buttons[|buttons| - 1]) else None
  }

  /**
   Fill and submit targets depend only on what the locators match and which
   elements refuse, so typing and selecting never move them.
   */
  lemma TargetsReadLookups(p: Page, q: Page, primary: string, fallback: Selector)
    requires p.found == q.found && p.rejects == q.rejects
    ensures FillTarget(p, primary, fallback) == FillTarget(q, primary, fallback)
    ensures SubmitTarget(p) == SubmitTarget(q)
  {
    FirstHitReadsLookups(p, q, SubmitLocators());
  }

  /**
   The submit step. It raises only when the chosen control refuses the click;
   with no control at all it leaves the page untouched and does not raise.
   The click is the only change it makes.
   */
  function Submit(p: Page): (r: Result<Page, Exception>)
    ensures SubmitTarget(p).None? ==> r == Success(p)
    ensures r.Failure? <==> SubmitTarget(p).Some? && !Accepts(p, SubmitTarget(p).value)
    ensures r.Failure? ==> r.error == p.rejects[SubmitTarget(p).value]
    ensures r.Success? && SubmitTarget(p).Some? ==> r.value == p.(clicks := p.clicks + [SubmitTarget(p).value])
  {
    match SubmitTarget(p)
    case None => Success(p)
    case Some(e) => Click(p, e)
  }

  /** The submit-locator loop: try each selector in order and stop at the first that finds an element. */
  method FindSubmitButton(p: Page) returns (button: Option<ElementId>)
    ensures button == FirstHit(p, SubmitLocators())
  {
    FirstHitSpec(p, SubmitLocators());
    button := None;
    var i := 0;
    while i < |SubmitSelectors|
      invariant 0 <= i <= |SubmitSelectors|
      invariant button.None?
      invariant forall j :: 0 <= j < i ==> !Resolves(p, SubmitLocators()[j])
    {
      var found := FindElement(p, Locator(SubmitSelectors[i]));
      if found.Some? {
        assert FirstHitAt(p, SubmitLocators(), i);
        button := found;
        return;
      }
      i := i + 1;
    }
  }

  /** The submit step as a loop: the locator loop, then the last-button fallback, then the click. */
  method SubmitStep(p: Page) returns (r: Result<Page, Exception>)
    ensures r == Submit(p)
  {
    var button := FindSubmitButton(p);
    if button.None? {
      var buttons := FindElements(p, TagName("button"));
      if |buttons| > 0 {
        button := Some(buttons[|buttons| - 1]);
      }
    }
    if button.Some? {
      r := Click(p, button.value);
    } else {
      r := Success(p);
    }
  }
}

=== FILE: report.dfy ===
/**
 The result record returned by the booking run, as the JSON object it is
 printed as: top-level string entries plus, on the non-error path, a nested
 `booking_details` object.
 */
module Report {
  import opened Browser
  import opened Request
  import opened Classifier

  datatype Json = Str(text: string) | Obj(fields: map<string, string>)

  type Record = map<string, Json>

  const ErrorPrefix: string := "Booking process failed: "

  /** The booking fields a result of each verdict echoes, besides `timestamp`. */
  function EchoedKeys(v: Verdict): set<string> {
    match v
    case Confirmed => {"name", "title", "phone", "email", "date", "time"}
    case Unconfirmed => {"name", "phone", "email"}
  }

  /** The status string a verdict is reported under. */
  function StatusName(v: Verdict): string {
    match v
    case Confirmed => "success"
    case Unconfirmed => "completed"
  }

  /**
   The record built after classification. It carries a status, a message and
   the booking details: exactly the echoed keys of its verdict plus the
   timestamp, each echoed value being the booking's field unchanged.
   */
  function ShapeResult(v: Verdict, b: Booking, timestamp: string): (r: Record)
    ensures r.Keys == {"status", "message", "booking_details"}
    ensures r["status"] == Str(StatusName(v))
    ensures r["message"] == Str(if v == Confirmed then "Reservation completed successfully!"
                                else "Booking process completed. Please verify the reservation.")
    ensures r["booking_details"].Obj?
    ensures r["booking_details"].fields.Keys == EchoedKeys(v) + {"timestamp"}
    ensures r["booking_details"].fields["timestamp"] == timestamp
    ensures forall k :: k in EchoedKeys(v) ==> k in Fields(b) && r["booking_details"].fields[k] == Fields(b)[k]
  {
    match v
    case Confirmed =>
      map["status" := Str("success"),
          "message" := Str("Reservation completed successfully!"),
          "booking_details" := Obj(map[
            "name" := b.name, "title" := b.title, "phone" := b.phone, "email" := b.email,
            "date" := b.date, "time" := b.time, "timestamp" := timestamp])]
    case Unconfirmed =>
      map["status" := Str("completed"),
          "message" := Str("Booking process completed. Please verify the reservation."),
          "booking_details" := Obj(map[
            "name" := b.name, "phone" := b.phone, "email" := b.email, "timestamp" := timestamp])]
  }

  /** The record for any caught exception: no booking details, only the failure and its class name. */
  function ErrorRecord(e: Exception): (r: Record)
    ensures r.Keys == {"status", "message", "error_type"}
    ensures r["status"] == Str("error")
    ensures r["message"] == Str(ErrorPrefix + e.text)
    ensures r["error_type"] == Str(e.kind)
  {
    map["status" := Str("error"),
        "message" := Str("Booking process failed: " + e.text),
        "error_type" := Str(e.kind)]
  }

  predicate IsError(r: Record) {
    "status" in r && r["status"] == Str("error")
  }

  /** The process exit status: 1 for an error result, 0 for anything else. */
  function ExitCode(r: Record): (code: int)
    requires "status" in r
    ensures code == 0 || code == 1
    ensures code == 1 <==> IsError(r)
  {
    if r["status"] != Str("error") then 0 else 1
  }

  /**
   Echoed values are the supplied inputs unchanged, and where a key was not
   supplied they are the entry point's built-in values.
   */
  lemma {:induction false} EchoesInput(m: map<string, string>, v: Verdict, timestamp: string, k: string)
    requires k in EchoedKeys(v)
    ensures var d := ShapeResult(v, Defaulted(m), timestamp)["booking_details"].fields;
            k in d && d[k] == if k in m then m[k] else DefaultArgument[k]
  {
    DefaultedByKey(m, k);
  }

  /** The classifier's two verdicts and the error record never share a status. */
  lemma StatusesDistinct(v: Verdict, b: Booking, timestamp: string, e: Exception)
    ensures !IsError(ShapeResult(v, b, timestamp)) && IsError(ErrorRecord(e))
    ensures ShapeResult(v, b, timestamp)["status"] != ShapeResult(if v == Confirmed then Unconfirmed else Confirmed, b, timestamp)["status"]
  {
  }
}

=== FILE: request.dfy ===
/**
 The booking request: the decoded JSON object, the seven booking fields read
 from it with their fixed defaults, and the entry point's built-in record.
 */
module Request {
  import opened Wrappers

  /** The seven fields the script reads after navigation. */
  datatype Booking = Booking(
    name: string,
    title: string,
    phone: string,
    email: string,
    date: string,
    time: string,
    partySize: string)

  /** The keys the seven fields are read from. */
  const BookingKeys: set<string> := {"name", "title", "phone", "email", "date", "time", "party_size"}

  /** The record the entry point uses when no usable argument is given. */
  const DefaultArgument: map<string, string> := map[
    "restaurant_url" := "https://inline.co.jp/restaurants/karuizawa-hotpot-gongyi",
    "name" := "李羿",
    "title" := "先生",
    "phone" := "0919077013",
    "email" := "alleh363953@gmail.com",
    "date" := "2025-11-15",
    "time" := "22:00",
    "party_size" := "2"]

  /** Python's `d.get(k, default)`. */
  function Get(m: map<string, string>, k: string, default: string): string {
    if k in m then m[k] else default
  }

  /** A booking as the key/value pairs it was read from. */
  function Fields(b: Booking): (m: map<string, string>)
    ensures m.Keys == BookingKeys
  {
    map["name" := b.name, "title" := b.title, "phone" := b.phone, "email" := b.email,
        "date" := b.date, "time" := b.time, "party_size" := b.partySize]
  }

  /**
   Each field is the supplied value when its key is present and otherwise a
   fixed literal; those literals are exactly the entry point's built-in values.
   */
  function Defaulted(m: map<string, string>): (b: Booking)
    ensures b.name == if "name" in m then m["name"] else DefaultArgument["name"]
    ensures b.title == if "title" in m then m["title"] else DefaultArgument["title"]
    ensures b.phone == if "phone" in m then m["phone"] else DefaultArgument["phone"]
    ensures b.email == if "email" in m then m["email"] else DefaultArgument["email"]
    ensures b.date == if "date" in m then m["date"] else DefaultArgument["date"]
    ensures b.time == if "time" in m then m["time"] else DefaultArgument["time"]
    ensures b.partySize == if "party_size" in m then m["party_size"] else DefaultArgument["party_size"]
  {
    Booking(
      Get(m, "name", "李羿"),
      Get(m, "title", "先生"),
      Get(m, "phone", "0919077013"),
      Get(m, "email", "alleh363953@gmail.com"),
      Get(m, "date", "2025-11-15"),
      Get(m, "time", "22:00"),
      Get(m, "party_size", "2"))
  }

  /** Key by key: the field read from key `k` is the supplied value, or the built-in value for `k`. */
  lemma DefaultedByKey(m: map<string, string>, k: string)
    requires k in BookingKeys
    ensures Fields(Defaulted(m))[k] == if k in m then m[k] else DefaultArgument[k]
  {
  }

  /** A complete input is taken verbatim: reading a booking back from its own fields gives it unchanged. */
  lemma FieldsRoundTrip(b: Booking)
    ensures Defaulted(Fields(b)) == b
  {
  }

  /** Keys outside the seven booking fields never influence the booking. */
  lemma DefaultedIgnoresOtherKeys(m: map<string, string>, m': map<string, string>)
    requires forall k :: k in BookingKeys ==> (k in m <==> k in m') && (k in m ==> m[k] == m'[k])
    ensures Defaulted(m) == Defaulted(m')
  {
  }

  /**
   Replacing the built-in record wholesale by a supplied one gives the same
   booking as merging the supplied keys over the built-in record would; the
   two differ only in the URL, which has no default of its own.
   */
  lemma WholesaleMatchesMerge(m: map<string, string>)
    ensures Defaulted(m) == Defaulted(DefaultArgument + m)
    ensures "restaurant_url" !in m ==> Url(m) == None && Url(DefaultArgument + m) == Some(DefaultArgument["restaurant_url"])
  {
  }

  /** The URL handed to the browser: `None` when the key is absent. */
  function Url(m: map<string, string>): Option<string> {
    if "restaurant_url" in m then Some(m["restaurant_url"]) else None
  }
}

=== FILE: session.dfy ===
/**
 One booking run and the process entry point. The browser is an environment
 value: whether it starts, which URLs fail to load, which screenshots fail,
 the page it shows, and the clock reading taken for the timestamp.
 */
module Session {
  import opened Wrappers
  import opened Browser
  import opened Request
  import opened Form
  import opened Classifier
  import opened Report
  import opened Text

  /** A decoded JSON argument: an object of string values, or some other JSON value. */
  datatype Payload = Object(fields: map<string, string>) | NonObject(typeName: string)

  datatype Env = Env(
    launch: Option<Exception>,                  // the browser fails to start with this
    unreachable: map<Option<string>, Exception>, // URLs whose navigation raises, and what
    page: Page,                                  // the page shown after navigation
    shotBefore: Option<Exception>,               // the pre-submit screenshot raises this
    shotAfter: Option<Exception>,                // the post-submit screenshot raises this
    clock: string)                               // the ISO-8601 reading taken at classification

  /** The exception `.get` raises on a JSON value that is not an object. */
  function NotAMapping(typeName: string): Exception {
    Exception("AttributeError", "'" + typeName + "' object has no attribute 'get'")
  }

  /**
   Everything the run does while the browser is alive, up to reading the final
   page: navigation, defaulting, then the page interaction.
   */
  function Drive(payload: Payload, env: Env): (r: Result<(Booking, Page), Exception>)
    ensures payload.NonObject? ==> r == Failure(NotAMapping(payload.typeName))
    ensures payload.Object? && Url(payload.fields) in env.unreachable ==> r == Failure(env.unreachable[Url(payload.fields)])
    ensures r.Success? ==> payload.Object? && r.value.0 == Defaulted(payload.fields)
    ensures r.Success? ==> r.value.1.source == env.page.source
  {
    match payload
    case NonObject(t) => Failure(NotAMapping(t))
    case Object(m) =>
      if Url(m) in env.unreachable then Failure(env.unreachable[Url(m)])
      else
        var b := Defaulted(m);
        var page :- Interact(env, b.name, b.phone, b.email);
        Success((b, page))
  }

  /**
   The page interaction: the three field fills around the title step, the
   pre-submit screenshot, the submit step and the post-submit screenshot.
   */
  function Interact(env: Env, name: string, phone: string, email: string): (r: Result<Page, Exception>)
    ensures r.Success? ==> env.shotBefore.None? && env.shotAfter.None?
    ensures r.Success? ==> r.value.source == env.page.source && r.value.found == env.page.found
  {
    var p1 :- FillField(env.page, "name", NameFallback, name);
    var p2 := SelectTitle(p1);
    var p3 :- FillField(p2, "phone", PhoneFallback, phone);
    var p4 :- FillField(p3, "email", EmailFallback, email);
    if env.shotBefore.Some? then Failure(env.shotBefore.value)
    else
      var p5 :- Submit(p4);
      if env.shotAfter.Some? then Failure(env.shotAfter.value)
      else Success(p5)
  }

  /** One of the three field fills meets a fallback element that refuses input. */
  predicate FillRaises(p: Page) {
    || FillTarget(p, "name", NameFallback).Raised?
    || FillTarget(p, "phone", PhoneFallback).Raised?
    || FillTarget(p, "email", EmailFallback).Raised?
  }

  /** The submit control exists and refuses the click. */
  predicate SubmitRefused(p: Page) {
    SubmitTarget(p).Some? && !Accepts(p, SubmitTarget(p).value)
  }

  /**
   Every exception a step raises escapes the interaction: it fails exactly
   when a field fill, a screenshot or the click raises, and it fails with the
   exception of the first step that does, taken in the order name, phone,
   email, first screenshot, click, second screenshot. Targets are those of
   the page as shown, since typing and selecting move no lookup.
   */
  lemma InteractFails(env: Env, name: string, phone: string, email: string)
    ensures Interact(env, name, phone, email).Failure? <==>
              FillRaises(env.page) || env.shotBefore.Some? || SubmitRefused(env.page) || env.shotAfter.Some?
    ensures FillTarget(env.page, "name", NameFallback).Raised? ==>
              Interact(env, name, phone, email) == Failure(FillTarget(env.page, "name", NameFallback).error)
    ensures !FillTarget(env.page, "name", NameFallback).Raised? && FillTarget(env.page, "phone", PhoneFallback).Raised? ==>
              Interact(env, name, phone, email) == Failure(FillTarget(env.page, "phone", PhoneFallback).error)
    ensures !FillTarget(env.page, "name", NameFallback).Raised? && !FillTarget(env.page, "phone", PhoneFallback).Raised? &&
            FillTarget(env.page, "email", EmailFallback).Raised? ==>
              Interact(env, name, phone, email) == Failure(FillTarget(env.page, "email", EmailFallback).error)
    ensures !FillRaises(env.page) && env.shotBefore.Some? ==> Interact(env, name, phone, email) == Failure(env.shotBefore.value)
    ensures !FillRaises(env.page) && env.shotBefore.None? && SubmitRefused(env.page) ==>
              Interact(env, name, phone, email) == Failure(env.page.rejects[SubmitTarget(env.page).value])
    ensures !FillRaises(env.page) && env.shotBefore.None? && !SubmitRefused(env.page) && env.shotAfter.Some? ==>
              Interact(env, name, phone, email) == Failure(env.shotAfter.value)
  {
    var p, r := env.page, Interact(env, name, phone, email);
    var p1 := FillField(p, "name", NameFallback, name);
    if p1.Failure? {
      assert r == Failure(p1.error);
    } else {
      var p2 := SelectTitle(p1.value);
      TargetsReadLookups(p2, p, "phone", PhoneFallback);
      var p3 := FillField(p2, "phone", PhoneFallback, phone);
      if p3.Failure? {
        assert r == Failure(p3.error);
      } else {
        TargetsReadLookups(p3.value, p, "email", EmailFallback);
        var p4 := FillField(p3.value, "email", EmailFallback, email);
        if p4.Failure? {
          assert r == Failure(p4.error);
        } else {
          assert !FillRaises(p);
          TargetsReadLookups(p4.value, p, "email", EmailFallback);
          assert SubmitRefused(p4.value) == SubmitRefused(p);
          if env.shotBefore.None? {
            var p5 := Submit(p4.value);
            if p5.Failure? {
              assert r == Failure(p5.error);
            } else if env.shotAfter.None? {
              assert r == Success(p5.value);
            }
          }
        }
      }
    }
  }

  /**
   On a page where every element accepts interaction, missing fields, a
   missing title control and a missing submit control never make the run
   fail: only the browser itself (navigation, screenshots) can.
   */
  lemma AbsentControlsNeverFail(m: map<string, string>, env: Env)
    requires env.page.rejects == map[]
    requires Url(m) !in env.unreachable && env.shotBefore.None? && env.shotAfter.None?
    ensures Drive(Object(m), env).Success?
    ensures Drive(Object(m), env).value.0 == Defaulted(m)
  {
  }

  /** `q` differs from `p` only in typed values, selections and at most one extra click. */
  ghost predicate Untouched(p: Page, q: Page) {
    && q.found == p.found && q.rejects == p.rejects && q.options == p.options && q.source == p.source
    && p.clicks <= q.clicks && |q.clicks| <= |p.clicks| + 1
  }

  /**
   The interaction only types, selects and clicks: what the locators match,
   how elements behave and the page source are as the browser showed them,
   and at most one click is added.
   */
  lemma InteractFrame(env: Env, name: string, phone: string, email: string)
    ensures Interact(env, name, phone, email).Success? ==> Untouched(env.page, Interact(env, name, phone, email).value)
  {
  }

  /**
   When each of the three fields is reachable by its primary name, on
   distinct elements that accept input, every one of them ends up holding the
   requested value.
   */
  lemma {:induction false} PrimaryFieldsFilled(env: Env, name: string, phone: string, email: string)
    requires env.page.rejects == map[] && env.shotBefore.None? && env.shotAfter.None?
    requires Resolves(env.page, ByName("name")) && Resolves(env.page, ByName("phone")) && Resolves(env.page, ByName("email"))
    requires FindElements(env.page, ByName("name"))[0] != FindElements(env.page, ByName("phone"))[0]
    requires FindElements(env.page, ByName("name"))[0] != FindElements(env.page, ByName("email"))[0]
    requires FindElements(env.page, ByName("phone"))[0] != FindElements(env.page, ByName("email"))[0]
    ensures Interact(env, name, phone, email).Success?
    ensures Interact(env, name, phone, email).value.values[FindElements(env.page, ByName("name"))[0]] == name
    ensures Interact(env, name, phone, email).value.values[FindElements(env.page, ByName("phone"))[0]] == phone
    ensures Interact(env, name, phone, email).value.values[FindElements(env.page, ByName("email"))[0]] == email
  {
    var n, t, e := FindElements(env.page, ByName("name"))[0], FindElements(env.page, ByName("phone"))[0],
                   FindElements(env.page, ByName("email"))[0];
    var p1 := FillField(env.page, "name", NameFallback, name);
    assert FillTarget(env.page, "name", NameFallback) == Filled(n);
    var p2 := SelectTitle(p1.value);
    assert FillTarget(p2, "phone", PhoneFallback) == Filled(t);
    var p3 := FillField(p2, "phone", PhoneFallback, phone);
    assert FillTarget(p3.value, "email", EmailFallback) == Filled(e);
    var p4 := FillField(p3.value, "email", EmailFallback, email);
    assert p4.value.values[n] == name && p4.value.values[t] == phone && p4.value.values[e] == email;
  }

  /**
   A run on a reachable page whose final source carries an affirmative marker
   and whose elements all accept interaction ends in a `success` record that
   echoes the requested fields.
   */
  lemma {:induction false} MarkedPageSucceeds(m: map<string, string>, env: Env)
    requires env.page.rejects == map[]
    requires Url(m) !in env.unreachable && env.shotBefore.None? && env.shotAfter.None?
    requires Occurs("成功", env.page.source) || Occurs("確認", env.page.source)
    ensures Drive(Object(m), env).Success?
    ensures Classify(Drive(Object(m), env).value.1.source) == Confirmed
    ensures Drive(Object(m), env).value.0 == Defaulted(m)
    ensures Conclude(Drive(Object(m), env), env.clock) == ShapeResult(Confirmed, Defaulted(m), env.clock)
  {
    AbsentControlsNeverFail(m, env);
    var b := Defaulted(m);
    InteractFrame(env, b.name, b.phone, b.email);
  }

  /**
   Only the name, phone and email reach the page: title, date, time and party
   size (and keys the run never reads) are not used by the interaction, so two
   requests that agree on the three contact fields and the URL drive the page
   identically.
   */
  lemma {:induction false} OnlyContactFieldsReachPage(m: map<string, string>, m': map<string, string>, env: Env)
    requires forall k :: k in {"name", "phone", "email"} ==> (k in m <==> k in m') && (k in m ==> m[k] == m'[k])
    requires Url(m) == Url(m')
    ensures Drive(Object(m), env).Success? <==> Drive(Object(m'), env).Success?
    ensures Drive(Object(m), env).Success? ==> Drive(Object(m), env).value.1 == Drive(Object(m'), env).value.1
  {
  }


  /**
   The record a started run ends with: the error record of the exception it
   raised, or the record for the classifier's verdict on the final page.
   */
  function Conclude(run: Result<(Booking, Page), Exception>, clock: string): (r: Record)
    ensures run.Failure? ==> r == ErrorRecord(run.error)
    ensures run.Success? ==>
              r.Keys == {"status", "message", "booking_details"} &&
              r["status"] == Str(if Classify(run.value.1.source) == Confirmed then "success" else "completed")
    ensures run.Success? ==>
              "booking_details" in r && r["booking_details"].Obj? &&
              "timestamp" in r["booking_details"].fields && r["booking_details"].fields["timestamp"] == clock
    ensures run.Success? ==>
              "booking_details" in r && r["booking_details"].Obj? &&
              forall k :: k in EchoedKeys(Classify(run.value.1.source)) ==>
                k in r["booking_details"].fields && k in Fields(run.value.0) &&
                r["booking_details"].fields[k] == Fields(run.value.0)[k]
  {
    match run
    case Failure(e) => ErrorRecord(e)
    case Success((b, page)) => ShapeResult(Classify(page.source), b, clock)
  }

  /**
   A started run ends in an error record exactly when it raised, and its
   status is always one of `success`, `completed` and `error`.
   */
  lemma ConcludeStatus(run: Result<(Booking, Page), Exception>, clock: string)
    ensures IsError(Conclude(run, clock)) <==> run.Failure?
    ensures "status" in Conclude(run, clock)
    ensures Conclude(run, clock)["status"] in {Str("success"), Str("completed"), Str("error")}
  {
  }

  /**
   The booking run. Its result is an error record exactly when an exception
   was raised, carrying that exception; otherwise the classifier's verdict
   on the final page decides between `success` and `completed`. The browser
   is quit exactly when it was started.
   */
  method BookRestaurant(payload: Payload, env: Env) returns (result: Record, quit: bool)
    ensures quit <==> env.launch.None?
    ensures env.launch.Some? ==> result == ErrorRecord(env.launch.value)
    ensures env.launch.None? ==> result == Conclude(Drive(payload, env), env.clock)
  {
    var started := false;
    var outcome: Result<Record, Exception>;
    if env.launch.Some? {
      outcome := Failure(env.launch.value);
    } else {
      started := true;
      var run := Drive(payload, env);
      if run.Failure? {
        outcome := Failure(run.error);
      } else {
        var (b, page) := run.value;
        outcome := Success(ShapeResult(Classify(page.source), b, env.clock));
      }
    }
    // except: every exception becomes the error record
    result := if outcome.Success? then outcome.value else ErrorRecord(outcome.error);
    // finally: quit the browser if one was started
    quit := started;
  }

  /** A command-line argument with what JSON decoding makes of it: `None` for invalid JSON. */
  datatype Argument = Argument(text: string, decoded: Option<Payload>)

  /**
   The payload the entry point runs with: the decoded first argument when
   there is one and it is valid JSON, otherwise the built-in record. A decoded
   argument replaces the built-in record wholesale.
   */
  function InputPayload(argv: seq<Argument>): (p: Payload)
    ensures |argv| <= 1 ==> p == Object(DefaultArgument)
    ensures |argv| > 1 && argv[1].decoded.None? ==> p == Object(DefaultArgument)
    ensures |argv| > 1 && argv[1].decoded.Some? ==> p == argv[1].decoded.value
  {
    if |argv| > 1 then
      match argv[1].decoded
      case Some(p) => p
      case None => Object(DefaultArgument)
    else Object(DefaultArgument)
  }

  /**
   The entry point: choose the payload, run the booking, and exit with 1
   exactly when the result is an error record, 0 otherwise.
   */
  method RunBooking(argv: seq<Argument>, env: Env) returns (result: Record, code: int)
    ensures env.launch.None? ==> result == Conclude(Drive(InputPayload(argv), env), env.clock)
    ensures env.launch.Some? ==> result == ErrorRecord(env.launch.value)
    ensures code == 0 || code == 1
    ensures code == 1 <==> IsError(result)
    ensures code == 1 <==> env.launch.Some? || Drive(InputPayload(argv), env).Failure?
  {
    var payload := InputPayload(argv);
    var quit;
    result, quit := BookRestaurant(payload, env);
    ConcludeStatus(Drive(payload, env), env.clock);
    code := ExitCode(result);
  }
}

=== FILE: text.dfy ===
/**
 The two string operations the outcome classifier relies on: Python's
 substring test `sub in s` and `str.lower()`, the latter restricted to ASCII.
 */
module Text {

  /** `sub` occurs in `s` starting at index `i`. */
  ghost predicate MatchAt(sub: string, s: string, i: nat) {
    i + |sub| <= |s| && s[i..i + |sub|] == sub
  }

  /** `sub` occurs somewhere in `s`: the declarative meaning of `sub in s`. */
  ghost predicate Occurs(sub: string, s: string) {
    exists i: nat :: MatchAt(sub, s, i)
  }

  /** Once position 0 is ruled out, an occurrence in `s` is one in its tail. */
  lemma OccursInTail(sub: string, s: string)
    requires |s| > 0 && !MatchAt(sub, s, 0)
    ensures Occurs(sub, s) <==> Occurs(sub, s[1..])
  {
    if Occurs(sub, s) {
      var i: nat :| MatchAt(sub, s, i);
      assert i > 0;
      assert s[1..][i - 1..i - 1 + |sub|] == s[i..i + |sub|];
      assert MatchAt(sub, s[1..], i - 1);
    }
    if Occurs(sub, s[1..]) {
      var j: nat :| MatchAt(sub, s[1..], j);
      assert s[1..][j..j + |sub|] == s[j + 1..j + 1 + |sub|];
      assert MatchAt(sub, s, j + 1);
    }
  }

  /** Python's `sub in s`, as a left-to-right scan of candidate start positions. */
  function Contains(sub: string, s: string): (r: bool)
    ensures r <==> Occurs(sub, s)
    decreases |s|
  {
    if sub <= s then
      assert MatchAt(sub, s, 0);
      true
    else if |s| == 0 then
      assert forall i: nat :: !MatchAt(sub, s, i);
      false
    else
      OccursInTail(sub, s);
      Contains(sub, s[1..])
  }

  /** ASCII case folding of one character; every other character is left alone. */
  function LowerChar(c: char): char {
    if 'A' <= c <= 'Z' then (c as int + 32) as char else c
  }

  /** `s.lower()` restricted to ASCII letters. */
  function Lower(s: string): (r: string)
    ensures |r| == |s|
    ensures forall i :: 0 <= i < |s| ==> r[i] == LowerChar(s[i])
  {
    if |s| == 0 then [] else [LowerChar(s[0])] + Lower(s[1..])
  }

  /** Folding commutes with taking a window of the text. */
  lemma LowerSlice(s: string, i: nat, j: nat)
    requires i <= j <= |s|
    ensures Lower(s)[i..j] == Lower(s[i..j])
  {
  }
}

=== FILE: wrappers.dfy ===
/** Failure-compatible wrappers used throughout the model. */
module Wrappers {

  /** A value that may be absent (Python's `None`). */
  datatype Option<+T> = None | Some(value: T)

  /** A computation that either produced a value or raised an exception. */
  datatype Result<+R, +E> = Success(value: R) | Failure(error: E) {

    predicate IsFailure() {
      Failure?
    }

    function PropagateFailure<U>(): Result<U, E>
      requires Failure?
    {
      Failure(error)
    }

    function Extract(): R
      requires Success?
    {
      value
    }
  }
}
